=== FILE: README.md ===
# Residue calculator core, in Dafny

A model of the analysis behind a small residue-theorem calculator
(`residuos.py`). The user types a formula in `z` and picks a contour: a
circle (a centre and a radius) or a rectangle (two corners). The handler
`analizar_funcion_compleja` then does four things:

- It asks the computer-algebra system for the singularities of the formula
  and the residue at each one. It keeps those whose residue is finite and
  nonzero (`calcular_polos_y_residuos`). Any exception empties the whole
  dictionary.
- It reads the contour parameters. Its contour reading (lines 88, 96, 97)
  accepts `i` in coordinates, but not in the radius; the plot then re-parses
  the raw text and rejects it (see Findings).
- It walks the dictionary in order. It keeps the poles strictly inside the
  contour and sums their residues.
- It reports `2*pi*I` times that sum, or `0` when nothing is enclosed.

A malformed formula is reported first. For a circle or a rectangle, a
malformed contour parameter or any pole with no numeric value is then
reported as a contour error.

Modules, one per file:

- `Wrappers`, `Sequences`, `Complexes`: `Option`, distinctness and
  subsequences, and exact complex arithmetic over `real`.
- `Poles`: the pole filter. The dictionary is a sequence of entries in
  insertion order, and `Store` is `d[k] = v`.
- `Contours`: the two contour shapes and the strict enclosure test.
- `Theorem`: the aggregation loop, held to a reference filter `Inside` and a
  sum `Total`, and the integral.
- `Analysis`: the handler up to its plotting call, with the errors in the
  source's order.
- `Handler`: the handler including the plotting routine's second parse of
  the contour texts and the poles.
- `Scenarios`: the application's own example requests, worked through the
  model.

The computer-algebra calls and Python's `complex()` and `float()` are
parameters: total functions returning `Option`, where `None` is the
exception the source catches.

Behaviour of `residuos.py` a reader might not expect:

- Any `float` radius is accepted. A radius of zero or less encloses nothing.
- An invalid formula is reported even when the contour text is also invalid
  (`Scenarios.UnreadableRadius`).
- A contour kind other than the two labels is not an error: nothing is
  enclosed.
- With either recognised contour kind, one pole with no numeric value,
  wherever it lies, makes the whole request a contour error (line 104). With
  an unrecognised kind the analysis never evaluates the poles, so there is no
  contour error; the plot raises at line 51 instead (`Handler.HandleIntended`).

## Model

| member | source | states |
|---|---|---|
| Poles.Store | residuos.py:27 | assigning to a present key keeps the key order, and a new key goes last; the stored pair is present and every other pair was there before |
| Poles.Scan | residuos.py:22-29 | the loop aborts exactly when the residue oracle raises for some visited singularity |
| Poles.ScanInvariant | residuos.py:24-27 | a completed loop keeps keys distinct and entries faithful to the oracle; its keys are the old ones plus exactly the visited singularities whose residue is finite and nonzero |
| Poles.PolesAndResidues | residuos.py:20-30 | the dictionary has distinct keys, each a found singularity with its finite nonzero residue; every such singularity is present; it is empty when either oracle raises |
| Poles.ScanOrder | residuos.py:24-27 | for distinct singularities, the loop appends exactly the contributing ones in visiting order |
| Poles.KeysFollowFinderOrder | residuos.py:20-30 | the dictionary's keys are the contributing singularities, in the order the finder produced them |
| Contours.Encloses | residuos.py:92-101 | a radius of zero or less, a point at or beyond the radius, an inverted or flat rectangle, and a point on a rectangle edge are all outside |
| Contours.CircleTestIsModulusTest | residuos.py:92 | the squared comparison agrees with `abs(p - c) < r` for every distance, point and radius |
| Contours.CircleEnclosesCentre | residuos.py:92 | a circle of positive radius encloses its centre |
| Contours.CircleInteriorNonEmpty | residuos.py:89-92 | a circle encloses some point exactly when its radius is positive |
| Contours.RectangleInteriorNonEmpty | residuos.py:101 | a rectangle encloses some point exactly when the first corner is strictly below and left of the second |
| Theorem.Sweep | residuos.py:91-104 | the loop fails exactly when some pole of the dictionary has no numeric value |
| Theorem.SweepComputesInside | residuos.py:91-103 | from any accumulators, the loop appends the enclosed poles in dictionary order and adds exactly their residues |
| Theorem.InsideMembers | residuos.py:91-103 | an entry is counted exactly when it is in the dictionary and its pole lies inside |
| Theorem.InsideKeys | residuos.py:91-103 | a pole is counted exactly when it is a key whose numeric value lies inside |
| Theorem.InsideKeepsOrder | residuos.py:93 | the enclosed poles are a subsequence of the dictionary's keys |
| Theorem.InsideDistinct | residuos.py:93 | distinct keys give distinct enclosed poles |
| Theorem.Classify | residuos.py:84-104 | from `0, []`, the loop gives the enclosed poles in dictionary order and the sum of exactly their residues; it fails exactly when some pole has no numeric value |
| Theorem.IntegralIsResidueTheorem | residuos.py:116-123 | on both branches, the reported integral denotes `2*pi*i` times the sum of the enclosed residues |
| Analysis.ImagToJ | residuos.py:88 | every `i` becomes `j`, every other character is kept, the length is the same and no `i` remains |
| Analysis.ImagToJKeepsPlainText | residuos.py:88 | a text without `i` is unchanged |
| Analysis.ImagToJIdempotent | residuos.py:88 | rewriting twice is rewriting once |
| Analysis.ReadContour | residuos.py:86-98 | an unknown kind reads nothing; a known kind is malformed exactly when one of its parses fails; a read contour carries the parsed values, with coordinates rewritten and the radius as typed |
| Analysis.ReadContourIgnoresOtherShape | residuos.py:86-98 | a circle request never depends on the corners, and a rectangle request never on the centre or radius |
| Analysis.ReadContourIgnoresUnitSpelling | residuos.py:88-97 | writing `j` for the user's `i` in any coordinate reads the same contour or fails the same way |
| Analysis.Analyze | residuos.py:75-105 | formula error exactly when parsing fails; contour error exactly when the formula parses and the contour is malformed or some pole has no numeric value; otherwise the report holds the dictionary, the enclosed poles and sum of the reference, and an integral of `0` exactly when nothing is enclosed |
| Analysis.UnrecognisedKindEnclosesNothing | residuos.py:84-118 | an unknown kind with a valid formula is analysed, encloses nothing and reports `0`, whatever the parameter texts |
| Analysis.NoPolesNoIntegral | residuos.py:82-118 | with no poles and readable parameters, the analysis succeeds and reports no poles, nothing enclosed, and sum and integral `0` |
| Analysis.ReadableContourIsAnalysed | residuos.py:84-123 | a parsed formula, a readable contour and locatable poles always give the residue-theorem report for that contour |
| Handler.HandleAsWritten | residuos.py:36-55 | the handler raises exactly when the analysis succeeded but the plot's re-parse of the raw texts or of a pole fails; otherwise it returns the analysis |
| Handler.AnalysedPlotParses | residuos.py:36-51 | after a successful analysis of a known kind, every parse the plot performs, with coordinates rewritten, succeeds |
| Handler.HandleIntended | residuos.py:75-130 | with the plot reading coordinates as the analysis does, a known kind always returns the analysis; the only escape is an unknown kind with a pole that has no numeric value |
| Handler.CentreWithIRaisesAsWritten | residuos.py:37 | a circle centre typed `1+2i` passes the analysis but makes the handler as written raise, while the intended handler returns the analysis |
| Scenarios.ThirdOrderPole | residuos.py:187 | for `exp(z) / (z - 2)**3` and radius 3, given residue `exp(2)/2`: the pole at 2 is enclosed and the integral is `pi*i*exp(2)` |
| Scenarios.CancellingResidues | residuos.py:188 | for `1/(z**2+4)` and radius 3: both poles are enclosed, the residues cancel and the integral `2*pi*I*0` denotes `0` |
| Scenarios.PoleOutsideCircle | residuos.py:189 | for `z**2 / (z-1)` and radius 0.5: the pole at 1 is found but not enclosed, and the integral is `0` |
| Scenarios.UnreadableRadius | residuos.py:79-105 | radius `abc` is a contour error when the formula parses, and an unparsable formula is reported first |

## Left out

- The computer-algebra system is left out: `sympify`, `singularities`, `residue`, `evalf`, `is_finite` and `simplify`. These calls are oracle parameters. Limits, derivatives and pole orders are not modelled.
- Analysis.Analyze: an exception the source does not catch has no outcome. This covers any exception from `sympify` other than `SympifyError` and `SyntaxError` (line 79), for example a `TypeError` from `z(2)`. It also covers anything but `ValueError` and `TypeError` inside the contour `try` (line 104). The oracles' `None` stands only for the caught classes. `Handler.Raised` covers only the plot's parses.
- Poles.PolesAndResidues: `residuo != 0` is modelled as a numeric comparison. Sympy compares structure, so an unsimplified residue equal to zero is kept by the source and dropped by the model.
- Poles.PolesAndResidues: the singularities are a finite sequence. For a formula such as `1 / sin(z)`, whose singularities may be an infinite set, the loop at line 24 does not finish; the model cannot express that.
- Analysis.ReadContour: parsed numbers are `real`. Python's `float("inf")` and `float("nan")`, and complex texts such as `nanj`, cannot be represented. An infinite radius would enclose every pole, and `nan` would enclose none.
- Floating-point rounding is not modelled: arithmetic is exact. `abs(p - c) < r` is modelled as a squared comparison, which is proved equivalent (`Contours.CircleTestIsModulusTest`).
- `pi` stays symbolic, as in the source. `Theorem.ValueOf` takes its value as a parameter.
- The Markdown wording and the `simplify` calls (lines 107-126) are left out. Only the branches are modelled: "no poles found" and "no pole enclosed".
- The drawing in `visualizar_plano_complejo`, `render_latex_formula` and the Gradio interface are left out. Only the plot routine's parses, which can raise, are modelled.
- The global symbol `z` and the `locals` table given to `sympify` are folded into the formula oracle.
- Determinism needs no lemma: every operation is a function of its inputs.
- Scenarios.ThirdOrderPole: `exp(2)` is a positive parameter, because it is not a rational number.
- The scenarios use parsers that know only the texts they contain.

## Findings

| source | as written | input that shows it | evidently intended | confidence | as-written member | corrected member |
|---|---|---|---|---|---|---|
| residuos.py:37-43 | the plotting routine re-parses the raw centre and corner texts with `complex()`, without the `i` to `j` rewrite of lines 88, 96 and 97 | kind `Círculo`, centre `1+2i`, a valid formula and radius: the analysis accepts the centre, then the call at line 128 raises `ValueError` outside every `try` | the plot reads coordinates the way the analysis did, so an accepted request always returns its report | medium; not executed | Handler.HandleAsWritten, Handler.CentreWithIRaisesAsWritten | Handler.HandleIntended |

=== FILE: analysis.dfy ===
/** The request handler `analizar_funcion_compleja` of residuos.py (lines
    75-126, without the Markdown wording and the plot): parse the formula,
    build the pole-residue dictionary, read the contour parameters, and run
    the residue-theorem aggregator, with the source's order of errors. */
module Analysis {
  import opened Wrappers
  import opened Complexes
  import opened Poles
  import opened Contours
  import opened Theorem

  /** The two contour kinds the user interface offers. */
  const CircleLabel: string := "Círculo"
  const RectangleLabel: string := "Rectángulo"

  /** The computer-algebra system, as the handler uses it; each call either
      returns a value or raises (`None`).
      - `sympify`: the formula text, parsed with the fixed local names
        `z, I, pi, exp, sin, cos, sqrt`; `None` is `SympifyError` or
        `SyntaxError`.
      - `singularities`: `sympy.singularities(f, z)`, in iteration order.
      - `residue`: `sympy.residue(f, z, s)`.
      - `evalf`: `complex(s.evalf())`, the numeric value of a pole. */
  datatype Cas<!E, !S> = Cas(
    sympify: string -> Option<E>,
    singularities: E -> Option<seq<S>>,
    residue: (E, S) -> Option<Residue>,
    evalf: S -> Option<Complex>)

  /** Python's text-to-number conversions `complex(text)` and
      `float(text)`; `None` is the `ValueError` they raise. */
  datatype Parsers = Parsers(complexOf: string -> Option<Complex>, floatOf: string -> Option<real>)

  /** The six inputs of the handler, as text. */
  datatype Request = Request(
    formula: string,
    kind: string,
    center: string,
    radius: string,
    lowerLeft: string,
    upperRight: string)

  /** `text.replace('i', 'j')`: the contour reading of lines 88, 96 and 97
      accepts `i` as well as Python's `j` for the imaginary unit in a
      coordinate (the plotting routine does not; see module `Handler`). */
  function ImagToJ(s: string): (r: string)
    ensures |r| == |s|
    ensures forall k :: 0 <= k < |s| && s[k] != 'i' ==> r[k] == s[k]
    ensures forall k :: 0 <= k < |s| && s[k] == 'i' ==> r[k] == 'j'
    ensures 'i' !in r
    decreases |s|
  {
    if s == [] then []
    else [if s[0] == 'i' then 'j' else s[0]] + ImagToJ(s[1..])
  }

  /** A text that needs no rewriting is left as it is. */
  lemma {:induction false} ImagToJKeepsPlainText(s: string)
    requires 'i' !in s
    ensures ImagToJ(s) == s
    decreases |s|
  {
    if s != [] {
      assert 'i' !in s[1..];
      ImagToJKeepsPlainText(s[1..]);
    }
  }

  /** Rewriting twice is rewriting once. */
  lemma ImagToJIdempotent(s: string)
    ensures ImagToJ(ImagToJ(s)) == ImagToJ(s)
  {
    ImagToJKeepsPlainText(ImagToJ(s));
  }

  /** What the `try` block makes of the contour inputs before its loop. */
  datatype ContourRead =
    | Read(contour: Contour)   // the parameters of a recognised kind parse
    | Unrecognised             // neither branch of the `if`/`elif` runs
    | Malformed                // `complex()` or `float()` raised `ValueError`

  /** The parameter parsing of the two branches: a circle reads its centre
      (with `i` rewritten) and its radius (as written); a rectangle reads
      its two corners (with `i` rewritten). */
  function ReadContour(req: Request, p: Parsers): (r: ContourRead)
    ensures r.Unrecognised? <==> req.kind != CircleLabel && req.kind != RectangleLabel
    ensures req.kind == CircleLabel ==>
      (r.Malformed? <==> p.complexOf(ImagToJ(req.center)).None? || p.floatOf(req.radius).None?)
    ensures req.kind == RectangleLabel ==>
      (r.Malformed? <==> p.complexOf(ImagToJ(req.lowerLeft)).None? || p.complexOf(ImagToJ(req.upperRight)).None?)
    ensures r.Read? && r.contour.Circle? ==>
      && req.kind == CircleLabel
      && Some(r.contour.center) == p.complexOf(ImagToJ(req.center))
      && Some(r.contour.radius) == p.floatOf(req.radius)
    ensures r.Read? && r.contour.Rectangle? ==>
      && req.kind == RectangleLabel
      && Some(r.contour.lowerLeft) == p.complexOf(ImagToJ(req.lowerLeft))
      && Some(r.contour.upperRight) == p.complexOf(ImagToJ(req.upperRight))
  {
    if req.kind == CircleLabel then
      match (p.complexOf(ImagToJ(req.center)), p.floatOf(req.radius))
      case (Some(o), Some(r)) => Read(Circle(o, r))
      case _ => Malformed
    else if req.kind == RectangleLabel then
      match (p.complexOf(ImagToJ(req.lowerLeft)), p.complexOf(ImagToJ(req.upperRight)))
      case (Some(a), Some(b)) => Read(Rectangle(a, b))
      case _ => Malformed
    else Unrecognised
  }

  /** `calcular_polos_y_residuos(funcion, z)` for a parsed formula. */
  function PolesOf<E, S(==)>(cas: Cas<E, S>, f: E): PoleMap<S> {
    PolesAndResidues(cas.singularities(f), ResidueAt(cas, f))
  }

  /** `sympy.residue(f, z, s)` as a function of the point `s`. */
  function ResidueAt<E, S>(cas: Cas<E, S>, f: E): S -> Option<Residue> {
    s => cas.residue(f, s)
  }

  /** Everything the Markdown report and the plot are drawn from. */
  datatype Report<S> = Report(
    poles: PoleMap<S>,          // `polos_y_residuos`
    contour: Option<Contour>,   // `None` for an unrecognised kind
    enclosed: seq<S>,           // `polos_encerrados`
    residueSum: Complex,        // `suma_residuos`
    integral: Integral)         // `resultado_integral`
  {
    /** The report says "no poles were found" (line 108). */
    predicate NoPolesFound() {
      poles == []
    }

    /** The report says "no pole lies inside the contour" (line 116). */
    predicate NothingEnclosed() {
      enclosed == []
    }
  }

  /** The handler's result: one of its two error reports (each with no
      figure) or the analysis. */
  datatype Outcome<S> = InvalidFunction | InvalidContour | Analysed(report: Report<S>)

  /** The tally of the source's loop for what `ReadContour` produced;
      `None` is a `TypeError` from converting a pole. */
  function TallyFor<S(==)>(read: ContourRead, poles: PoleMap<S>, evalf: S -> Option<Complex>): Option<Tally<S>>
    requires !read.Malformed?
  {
    match read
    case Unrecognised => Some(Tally([], Zero))
    case Read(c) => Classify(c, poles, evalf)
  }

  /** `analizar_funcion_compleja` up to the call of the plotting routine at
      line 128: the value the handler has computed by then. What that call
      adds is modelled in module `Handler`. */
  function Analyze<E, S(==)>(req: Request, cas: Cas<E, S>, p: Parsers): (o: Outcome<S>)
    ensures o.InvalidFunction? <==> cas.sympify(req.formula).None?
    ensures o.InvalidContour? <==>
      && cas.sympify(req.formula).Some?
      && (|| ReadContour(req, p).Malformed?
          || (ReadContour(req, p).Read? && SomeFails(Keys(PolesOf(cas, cas.sympify(req.formula).value)), cas.evalf)))
    ensures o.Analysed? ==>
      && o.report.poles == PolesOf(cas, cas.sympify(req.formula).value)
      && (ReadContour(req, p).Read? ==> o.report.contour == Some(ReadContour(req, p).contour))
      && (ReadContour(req, p).Unrecognised? ==> o.report.contour == None)
    ensures o.Analysed? && o.report.contour.Some? ==>
      var inside := Inside(o.report.contour.value, o.report.poles, cas.evalf);
      && o.report.enclosed == Keys(inside)
      && o.report.residueSum == Total(inside)
    ensures o.Analysed? && o.report.contour.None? ==>
      o.report.enclosed == [] && o.report.residueSum == Zero
    ensures o.Analysed? ==>
      o.report.integral == if o.report.enclosed == [] then NoContribution else TwoPiI(o.report.residueSum)
  {
    match cas.sympify(req.formula)
    case None => InvalidFunction
    case Some(f) =>
      var poles := PolesOf(cas, f);
      var read := ReadContour(req, p);
      if read.Malformed? then InvalidContour
      else
        match TallyFor(read, poles, cas.evalf)
        case None => InvalidContour
        case Some(t) =>
          Analysed(Report(poles, if read.Read? then Some(read.contour) else None,
                          t.enclosed, t.sum, IntegralOf(t)))
  }

  /** A circle request never looks at the rectangle's corners, and a
      rectangle request never looks at the circle's centre or radius. */
  lemma ReadContourIgnoresOtherShape(req: Request, p: Parsers, center: string, radius: string, lowerLeft: string, upperRight: string)
    ensures req.kind == CircleLabel ==>
      ReadContour(req.(lowerLeft := lowerLeft, upperRight := upperRight), p) == ReadContour(req, p)
    ensures req.kind == RectangleLabel ==>
      ReadContour(req.(center := center, radius := radius), p) == ReadContour(req, p)
  {
  }

  /** Reading is blind to how the imaginary unit of a coordinate is
      written: typing `j` where the user typed `i` in the centre or the
      corners reads the same contour, or fails the same way. The radius is
      not rewritten, so it is left alone here. */
  lemma ReadContourIgnoresUnitSpelling(req: Request, p: Parsers)
    ensures ReadContour(req.(center := ImagToJ(req.center),
                             lowerLeft := ImagToJ(req.lowerLeft),
                             upperRight := ImagToJ(req.upperRight)), p)
      == ReadContour(req, p)
  {
    ImagToJIdempotent(req.center);
    ImagToJIdempotent(req.lowerLeft);
    ImagToJIdempotent(req.upperRight);
  }

  /** An unrecognised contour kind is not an error, whatever the parameter
      texts hold: nothing is enclosed and the integral is `0`. */
  lemma UnrecognisedKindEnclosesNothing<E, S>(req: Request, cas: Cas<E, S>, p: Parsers)
    requires cas.sympify(req.formula).Some?
    requires req.kind != CircleLabel && req.kind != RectangleLabel
    ensures Analyze(req, cas, p).Analysed?
    ensures Analyze(req, cas, p).report.NothingEnclosed()
    ensures Analyze(req, cas, p).report.integral == NoContribution
  {
  }

  /** Once the formula parses, the handler fails only on the contour: with
      well-formed parameters and no pole to convert (a formula with no
      contributing pole) the analysis always succeeds, encloses nothing and
      reports `0`. */
  lemma NoPolesNoIntegral<E, S>(req: Request, cas: Cas<E, S>, p: Parsers)
    requires cas.sympify(req.formula).Some?
    requires PolesOf(cas, cas.sympify(req.formula).value) == []
    requires !ReadContour(req, p).Malformed?
    ensures Analyze(req, cas, p).Analysed?
    ensures Analyze(req, cas, p).report.NoPolesFound()
    ensures Analyze(req, cas, p).report.NothingEnclosed()
    ensures Analyze(req, cas, p).report.residueSum == Zero
    ensures Analyze(req, cas, p).report.integral == NoContribution
  {
    assert Keys<S>([]) == [];
  }

  /** A parsed formula, a readable contour and poles that all have numeric
      values always give the report of the residue theorem for that
      contour. */
  lemma ReadableContourIsAnalysed<E, S>(req: Request, cas: Cas<E, S>, p: Parsers, f: E, c: Contour)
    requires cas.sympify(req.formula) == Some(f)
    requires ReadContour(req, p) == Read(c)
    requires !SomeFails(Keys(PolesOf(cas, f)), cas.evalf)
    ensures var inside := Inside(c, PolesOf(cas, f), cas.evalf);
      Analyze(req, cas, p) == Analysed(Report(PolesOf(cas, f), Some(c), Keys(inside), Total(inside),
                                              if Keys(inside) == [] then NoContribution else TwoPiI(Total(inside))))
  {
  }
}

=== FILE: complexes.dfy ===
/** Exact complex numbers over the reals. They stand in for Python's `complex`
    values and for the numeric sympy values the analysis adds up; floating-point
    rounding is not modelled. */
module Complexes {

  datatype Complex = Complex(re: real, im: real)

  const Zero: Complex := Complex(0.0, 0.0)

  function Add(a: Complex, b: Complex): Complex {
    Complex(a.re + b.re, a.im + b.im)
  }

  function Sub(a: Complex, b: Complex): Complex {
    Complex(a.re - b.re, a.im - b.im)
  }

  function Mul(a: Complex, b: Complex): Complex {
    Complex(a.re * b.re - a.im * b.im, a.re * b.im + a.im * b.re)
  }

  function Square(x: real): real {
    x * x
  }

  /** Squaring is strictly increasing on the nonnegative reals. */
  lemma SquareGrows(x: real, y: real)
    requires 0.0 <= x < y
    ensures Square(x) < Square(y)
  {
    var d := y - x;
    assert y * y == x * x + 2.0 * x * d + d * d;
    assert 0.0 <= x * d;
    assert 0.0 < d * d;
  }

  // Solver hints: identities Dafny proves unaided, named so that the
  // proofs about the integral can instantiate them at the terms they need.

  lemma AddZero(a: Complex)
    ensures Add(Zero, a) == a
  {
  }

  lemma MulZero(a: Complex)
    ensures Mul(a, Zero) == Zero
  {
  }

  /** The square of the modulus, `abs(a) ** 2`. */
  function Norm2(a: Complex): real {
    a.re * a.re + a.im * a.im
  }
}

=== FILE: contours.dfy ===
/** The two contour shapes of residuos.py and the strict test that decides
    whether a pole lies inside one (lines 92 and 101). */
module Contours {
  import opened Complexes

  datatype Contour =
    | Circle(center: Complex, radius: real)
    | Rectangle(lowerLeft: Complex, upperRight: Complex)

  /** `abs(p - center) < radius` for a circle, written without the square
      root (see `CircleTestIsModulusTest`); the chained strict comparisons
      `p1.real < p.real < p2.real and p1.imag < p.imag < p2.imag` for a
      rectangle. */
  predicate Encloses(c: Contour, p: Complex): (b: bool)
    ensures c.Circle? && c.radius <= 0.0 ==> !b
    ensures c.Circle? && Norm2(Sub(p, c.center)) >= Square(c.radius) ==> !b
    ensures c.Rectangle? && (c.lowerLeft.re >= c.upperRight.re || c.lowerLeft.im >= c.upperRight.im) ==> !b
    ensures c.Rectangle? && (p.re == c.lowerLeft.re || p.re == c.upperRight.re) ==> !b
    ensures c.Rectangle? && (p.im == c.lowerLeft.im || p.im == c.upperRight.im) ==> !b
  {
    match c
    case Circle(o, r) => 0.0 < r && Norm2(Sub(p, o)) < Square(r)
    case Rectangle(a, b) => a.re < p.re < b.re && a.im < p.im < b.im
  }

  /** For any distance `d` (a nonnegative real whose square is the squared
      distance from the centre), the source's `d < radius` agrees with the
      model's test. */
  lemma CircleTestIsModulusTest(o: Complex, r: real, p: Complex, d: real)
    requires 0.0 <= d && Square(d) == Norm2(Sub(p, o))
    ensures d < r <==> Encloses(Circle(o, r), p)
  {
    if d < r {
      SquareGrows(d, r);
    } else if 0.0 < r && r < d {
      SquareGrows(r, d);
    }
  }

  /** A circle of positive radius encloses its centre. */
  lemma CircleEnclosesCentre(o: Complex, r: real)
    requires 0.0 < r
    ensures Encloses(Circle(o, r), o)
  {
    SquareGrows(0.0, r);
  }

  /** A circle encloses some point exactly when its radius is positive. */
  lemma CircleInteriorNonEmpty(o: Complex, r: real)
    ensures (exists p :: Encloses(Circle(o, r), p)) <==> 0.0 < r
  {
    if 0.0 < r {
      CircleEnclosesCentre(o, r);
    }
  }

  /** A rectangle encloses some point exactly when its first corner lies
      strictly below and to the left of its second. */
  lemma RectangleInteriorNonEmpty(a: Complex, b: Complex)
    ensures (exists p :: Encloses(Rectangle(a, b), p)) <==> a.re < b.re && a.im < b.im
  {
    if a.re < b.re && a.im < b.im {
      var mid := Complex((a.re + b.re) / 2.0, (a.im + b.im) / 2.0);
      assert Encloses(Rectangle(a, b), mid);
    }
  }
}

=== FILE: handler.dfy ===
/** The whole of `analizar_funcion_compleja` of residuos.py, up to its
    return (lines 75-130): the analysis of module `Analysis`, followed by
    the call to the plotting routine `visualizar_plano_complejo` (line 128),
    which sits outside every `try` and parses the contour texts and the
    poles a second time (lines 36-51). Only those parses are modelled; the
    drawing itself is not. */
module Handler {
  import opened Wrappers
  import opened Complexes
  import opened Poles
  import opened Analysis

  /** What a call of the handler does: return a value, or let an exception
      escape to its caller. */
  datatype Handled<S> = Returned(outcome: Outcome<S>) | Raised

  /** The contour texts handed to the plotting routine are used as typed. */
  function Verbatim(s: string): string {
    s
  }

  /** The parses the plotting routine performs for an analysed request:
      the centre and radius of a circle (line 37), the two corners of a
      rectangle (lines 42-43), and the numeric value of every pole of the
      dictionary (line 51), each of which raises on failure. `text` is what
      the routine does to a coordinate text before `complex()`. */
  predicate PlotParses<S>(req: Request, p: Parsers, poles: PoleMap<S>, evalf: S -> Option<Complex>, text: string -> string) {
    && (req.kind == CircleLabel ==> p.complexOf(text(req.center)).Some? && p.floatOf(req.radius).Some?)
    && (req.kind == RectangleLabel ==>
          p.complexOf(text(req.lowerLeft)).Some? && p.complexOf(text(req.upperRight)).Some?)
    && forall k | 0 <= k < |Keys(poles)| :: evalf(Keys(poles)[k]).Some?
  }

  /** The handler with a plotting routine that rewrites coordinate texts
      with `text`: the error reports return without a figure, and an
      analysis returns only if the plot's parses succeed. */
  function HandleWith<E, S(==)>(req: Request, cas: Cas<E, S>, p: Parsers, text: string -> string): Handled<S> {
    match Analyze(req, cas, p)
    case Analysed(r) => if PlotParses(req, p, r.poles, cas.evalf, text) then Returned(Analysed(r)) else Raised
    case o => Returned(o)
  }

  /** The handler as written: the plot re-parses the raw texts, so it
      raises exactly when the analysis succeeded but one of its own parses
      fails. */
  function HandleAsWritten<E, S(==)>(req: Request, cas: Cas<E, S>, p: Parsers): (h: Handled<S>)
    ensures h.Returned? ==> h.outcome == Analyze(req, cas, p)
    ensures h.Raised? <==>
      && Analyze(req, cas, p).Analysed?
      && !PlotParses(req, p, Analyze(req, cas, p).report.poles, cas.evalf, Verbatim)
  {
    HandleWith(req, cas, p, Verbatim)
  }

  /** The handler with the plot reading the coordinates as the analysis
      does (with `i` rewritten to `j`): for a recognised contour kind it
      returns exactly what the analysis computed; it can raise only for an
      unrecognised kind, when some pole has no numeric value. */
  function HandleIntended<E, S(==)>(req: Request, cas: Cas<E, S>, p: Parsers): (h: Handled<S>)
    ensures req.kind == CircleLabel || req.kind == RectangleLabel ==> h == Returned(Analyze(req, cas, p))
    ensures h.Returned? ==> h.outcome == Analyze(req, cas, p)
    ensures h.Raised? ==>
      && req.kind != CircleLabel && req.kind != RectangleLabel
      && Analyze(req, cas, p).Analysed?
      && SomeFails(Keys(Analyze(req, cas, p).report.poles), cas.evalf)
  {
    AnalysedPlotParses(req, cas, p);
    HandleWith(req, cas, p, ImagToJ)
  }

  /** Once the analysis of a recognised kind succeeds, every text and pole
      the plot reads has already been read successfully the same way. */
  lemma AnalysedPlotParses<E, S>(req: Request, cas: Cas<E, S>, p: Parsers)
    ensures (req.kind == CircleLabel || req.kind == RectangleLabel) && Analyze(req, cas, p).Analysed? ==>
      PlotParses(req, p, Analyze(req, cas, p).report.poles, cas.evalf, ImagToJ)
  {
    if (req.kind == CircleLabel || req.kind == RectangleLabel) && Analyze(req, cas, p).Analysed? {
      var read := ReadContour(req, p);
      assert read.Read?;
      var ks := Keys(Analyze(req, cas, p).report.poles);
      assert !SomeFails(ks, cas.evalf);
      forall k | 0 <= k < |ks| ensures cas.evalf(ks[k]).Some? {
      }
    }
  }

  /** A centre typed with `i`, such as `1+2i`, which Python's `complex()`
      rejects but accepts once written `1+2j`: the analysis accepts it and
      succeeds, the handler as written then raises `ValueError` from the
      plot, and the intended handler returns the analysis. */
  lemma CentreWithIRaisesAsWritten<E, S>(req: Request, cas: Cas<E, S>, p: Parsers)
    requires cas.sympify(req.formula).Some?
    requires PolesOf(cas, cas.sympify(req.formula).value) == []
    requires req.kind == CircleLabel && req.center == "1+2i"
    requires p.complexOf("1+2j").Some? && p.complexOf("1+2i").None?
    requires p.floatOf(req.radius).Some?
    ensures Analyze(req, cas, p).Analysed?
    ensures HandleAsWritten(req, cas, p) == Raised
    ensures HandleIntended(req, cas, p) == Returned(Analyze(req, cas, p))
  {
    assert ImagToJ("1+2i") == "1+2j";
    assert Keys<S>([]) == [];
  }
}

=== FILE: poles.dfy ===
/** The pole filter `calcular_polos_y_residuos` of residuos.py: ask the
    computer-algebra system for the singularities of `f`, ask it for the
    residue at each one, and keep the singularities whose residue is finite
    and nonzero. Any exception, from either call, empties the whole result. */
module Poles {
  import opened Wrappers
  import opened Complexes
  import opened Sequences

  /** What `sympy.residue` returns, as far as the filter can tell: a value
      whose `is_finite` is True, or one whose `is_finite` is False or
      undecided (both are falsy in the source's test). */
  datatype Residue = Finite(value: Complex) | NotFinite

  /** One key/value pair of the pole-residue dictionary. */
  datatype Entry<S> = Entry(pole: S, residue: Complex)

  /** A Python dictionary from singularity to residue, as the list of its
      items in insertion (= iteration) order. */
  type PoleMap<S> = seq<Entry<S>>

  function Keys<S>(m: PoleMap<S>): seq<S> {
    if m == [] then [] else [m[0].pole] + Keys(m[1..])
  }

  lemma {:induction false} KeysOfCons<S>(e: Entry<S>, m: PoleMap<S>)
    ensures Keys([e] + m) == [e.pole] + Keys(m)
  {
    assert ([e] + m)[1..] == m;
  }

  /** A key is present exactly when some entry carries it. */
  lemma {:induction false} InKeys<S>(m: PoleMap<S>, x: S)
    ensures x in Keys(m) <==> exists e :: e in m && e.pole == x
  {
    if m != [] {
      InKeys(m[1..], x);
      assert forall e :: e in m <==> e == m[0] || e in m[1..];
    }
  }

  /** The source's test `residuo.is_finite and residuo != 0`. */
  predicate Contributes(r: Residue) {
    r.Finite? && r.value != Zero
  }

  /** Dictionary assignment `m[k] = v`: an existing key keeps its position
      and gets the new value, a new key goes to the end. */
  function Store<S(==)>(m: PoleMap<S>, k: S, v: Complex): (m': PoleMap<S>)
    ensures Keys(m') == if k in Keys(m) then Keys(m) else Keys(m) + [k]
    ensures Entry(k, v) in m'
    ensures forall e :: e in m' ==> e == Entry(k, v) || e in m
    decreases |m|
  {
    if m == [] then
      assert Keys([Entry(k, v)]) == [k];
      [Entry(k, v)]
    else if m[0].pole == k then
      KeysOfCons(m[0], m[1..]);
      KeysOfCons(Entry(k, v), m[1..]);
      [Entry(k, v)] + m[1..]
    else
      var r := Store(m[1..], k, v);
      KeysOfCons(m[0], m[1..]);
      KeysOfCons(m[0], r);
      [m[0]] + r
  }

  /** Every entry holds the residue the oracle reports for its key, and that
      residue passes the filter. */
  ghost predicate Faithful<S>(m: PoleMap<S>, residueOf: S -> Option<Residue>) {
    forall e :: e in m ==> residueOf(e.pole) == Some(Finite(e.residue)) && e.residue != Zero
  }

  /** The dictionary after the source's loop body has run for `s`. */
  function Step<S(==)>(acc: PoleMap<S>, s: S, res: Residue): PoleMap<S> {
    if Contributes(res) then Store(acc, s, res.value) else acc
  }

  /** The loop of the source over the singularities still to visit, with
      the dictionary built so far; `None` is an exception escaping the loop. */
  function Scan<S(==)>(todo: seq<S>, residueOf: S -> Option<Residue>, acc: PoleMap<S>): (r: Option<PoleMap<S>>)
    ensures r.None? <==> SomeFails(todo, residueOf)
    decreases |todo|
  {
    if todo == [] then Some(acc)
    else
      SomeFailsCons(todo, residueOf);
      match residueOf(todo[0])
      case None => None
      case Some(res) => Scan(todo[1..], residueOf, Step(acc, todo[0], res))
  }

  /** A completed scan keeps the dictionary's keys distinct and its entries
      faithful to the oracle, loses no key, and adds exactly the visited
      singularities whose residue passes the filter. */
  lemma {:induction false} ScanInvariant<S>(todo: seq<S>, residueOf: S -> Option<Residue>, acc: PoleMap<S>)
    requires Distinct(Keys(acc)) && Faithful(acc, residueOf)
    requires !SomeFails(todo, residueOf)
    ensures Distinct(Keys(Scan(todo, residueOf, acc).value))
    ensures Faithful(Scan(todo, residueOf, acc).value, residueOf)
    ensures forall x :: x in Keys(Scan(todo, residueOf, acc).value) <==>
      x in Keys(acc) || (x in todo && Contributes(residueOf(x).value))
    decreases |todo|
  {
    if todo != [] {
      SomeFailsCons(todo, residueOf);
      var res := residueOf(todo[0]).value;
      var acc' := Step(acc, todo[0], res);
      if Contributes(res) && todo[0] !in Keys(acc) {
        DistinctSnoc(Keys(acc), todo[0]);
      }
      ScanInvariant(todo[1..], residueOf, acc');
      assert forall x :: x in todo <==> x == todo[0] || x in todo[1..];
    }
  }

  /** `calcular_polos_y_residuos(func, var)`: `found` is what
      `sympy.singularities` returned (`None` when it raised) and `residueOf`
      is `sympy.residue` at one point. */
  function PolesAndResidues<S(==)>(found: Option<seq<S>>, residueOf: S -> Option<Residue>): (m: PoleMap<S>)
    ensures Distinct(Keys(m))
    ensures forall e :: e in m ==>
      && found.Some? && e.pole in found.value
      && residueOf(e.pole) == Some(Finite(e.residue))
      && e.residue != Zero
    ensures found.None? ==> m == []
    ensures found.Some? && SomeFails(found.value, residueOf) ==> m == []
    ensures found.Some? && !SomeFails(found.value, residueOf) ==>
      forall s :: s in found.value && Contributes(residueOf(s).value) ==> s in Keys(m)
  {
    match found
    case None => []
    case Some(ss) =>
      match Scan(ss, residueOf, [])
      case None => []
      case Some(m) =>
        ScanInvariant(ss, residueOf, []);
        forall e | e in m ensures e.pole in ss {
          InKeys(m, e.pole);
          assert e.pole in Keys(m);
          assert e.pole !in Keys([]);
        }
        m
  }

  /** The singularities among `ss` whose residue passes the filter, in order. */
  function Contributing<S>(ss: seq<S>, residueOf: S -> Option<Residue>): seq<S>
    requires !SomeFails(ss, residueOf)
  {
    if ss == [] then []
    else
      SomeFailsCons(ss, residueOf);
      (if Contributes(residueOf(ss[0]).value) then [ss[0]] else [])
        + Contributing(ss[1..], residueOf)
  }

  /** The keys the loop body adds for `s`. */
  function Added<S>(s: S, res: Residue): seq<S> {
    if Contributes(res) then [s] else []
  }

  lemma StepKeys<S>(acc: PoleMap<S>, s: S, res: Residue)
    requires s !in Keys(acc)
    ensures Keys(Step(acc, s, res)) == Keys(acc) + Added(s, res)
  {
  }

  lemma ScanOrderStep<S>(todo: seq<S>, residueOf: S -> Option<Residue>, acc: PoleMap<S>)
    requires todo != [] && Distinct(todo) && !SomeFails(todo, residueOf)
    requires forall x :: x in todo ==> x !in Keys(acc)
    ensures residueOf(todo[0]).Some?
    ensures !SomeFails(todo[1..], residueOf) && Distinct(todo[1..])
    ensures Scan(todo, residueOf, acc)
      == Scan(todo[1..], residueOf, Step(acc, todo[0], residueOf(todo[0]).value))
    ensures Keys(Step(acc, todo[0], residueOf(todo[0]).value))
      == Keys(acc) + Added(todo[0], residueOf(todo[0]).value)
    ensures forall x :: x in todo[1..] ==> x !in Keys(Step(acc, todo[0], residueOf(todo[0]).value))
    ensures Contributing(todo, residueOf)
      == Added(todo[0], residueOf(todo[0]).value) + Contributing(todo[1..], residueOf)
  {
    SomeFailsCons(todo, residueOf);
    var acc' := Step(acc, todo[0], residueOf(todo[0]).value);
    StepKeys(acc, todo[0], residueOf(todo[0]).value);
    forall x | x in todo[1..] ensures x !in Keys(acc') {
      assert x in todo;
    }
  }

  lemma ScanOrderCombine<S>(todo: seq<S>, residueOf: S -> Option<Residue>, acc: PoleMap<S>, acc': PoleMap<S>)
    requires todo != [] && !SomeFails(todo, residueOf)
    requires !SomeFails(todo[1..], residueOf)
    requires Scan(todo, residueOf, acc) == Scan(todo[1..], residueOf, acc')
    requires Keys(acc') == Keys(acc) + Added(todo[0], residueOf(todo[0]).value)
    requires Contributing(todo, residueOf)
      == Added(todo[0], residueOf(todo[0]).value) + Contributing(todo[1..], residueOf)
    requires Keys(Scan(todo[1..], residueOf, acc').value) == Keys(acc') + Contributing(todo[1..], residueOf)
    ensures Keys(Scan(todo, residueOf, acc).value) == Keys(acc) + Contributing(todo, residueOf)
  {
    var added := Added(todo[0], residueOf(todo[0]).value);
    var rest := Contributing(todo[1..], residueOf);
    calc {
      Keys(Scan(todo, residueOf, acc).value);
      Keys(acc') + rest;
      (Keys(acc) + added) + rest;
      { AppendAssoc(Keys(acc), added, rest); }
      Keys(acc) + (added + rest);
    }
  }

  lemma {:induction false} ScanOrder<S>(todo: seq<S>, residueOf: S -> Option<Residue>, acc: PoleMap<S>)
    requires Distinct(todo) && !SomeFails(todo, residueOf)
    requires forall x :: x in todo ==> x !in Keys(acc)
    ensures Keys(Scan(todo, residueOf, acc).value) == Keys(acc) + Contributing(todo, residueOf)
    decreases |todo|
  {
    if todo != [] {
      ScanOrderStep(todo, residueOf, acc);
      var acc' := Step(acc, todo[0], residueOf(todo[0]).value);
      ScanOrder(todo[1..], residueOf, acc');
      ScanOrderCombine(todo, residueOf, acc, acc');
    }
  }

  /** With no exception and no repeated singularity, the dictionary lists
      the contributing singularities in exactly the order the finder
      produced them. */
  lemma {:induction false} KeysFollowFinderOrder<S>(ss: seq<S>, residueOf: S -> Option<Residue>)
    requires Distinct(ss) && !SomeFails(ss, residueOf)
    ensures Keys(PolesAndResidues(Some(ss), residueOf)) == Contributing(ss, residueOf)
  {
    ScanOrder(ss, residueOf, []);
  }
}

=== FILE: scenarios.dfy ===
/** Requests of the kind the application offers as examples
    (residuos.py:187-190), worked through the model with a computer-algebra
    system that answers with the exact values of the mathematics: poles are
    their own numeric positions and every residue is the true one. */
module Scenarios {
  import opened Wrappers
  import opened Complexes
  import opened Poles
  import opened Contours
  import opened Theorem
  import opened Analysis

  /** Parsers that know exactly the texts used below. */
  function Numbers(): Parsers {
    Parsers(
      t => if t == "0+0j" then Some(Zero) else None,
      t => if t == "3.0" then Some(3.0) else if t == "0.5" then Some(0.5) else None)
  }

  /** A system whose parser accepts exactly `formula`, whose singularities
      are `poles`, and whose residues are given by `res`. */
  function System(formula: string, poles: seq<Complex>, res: Complex -> Residue): Cas<(), Complex> {
    Cas(t => if t == formula then Some(()) else None,
        _ => Some(poles),
        (_, s) => Some(res(s)),
        s => Some(s))
  }

  function CircleRequest(formula: string, radius: string): Request {
    Request(formula, CircleLabel, "0+0j", radius, "-1-1j", "1+1j")
  }

  const TwoI: Complex := Complex(0.0, 2.0)
  const MinusTwoI: Complex := Complex(0.0, -2.0)

  /** The centre text and a known radius text read as a circle at the origin. */
  lemma ReadsOriginCircle(formula: string, radius: string, r: real)
    requires Numbers().floatOf(radius) == Some(r)
    ensures ReadContour(CircleRequest(formula, radius), Numbers()) == Read(Circle(Zero, r))
  {
    ImagToJKeepsPlainText("0+0j");
  }

  /** The dictionary of a formula with two distinct poles of nonzero residue. */
  lemma TwoPolesFound<E>(cas: Cas<E, Complex>, f: E, p1: Complex, v1: Complex, p2: Complex, v2: Complex)
    requires cas.singularities(f) == Some([p1, p2])
    requires cas.residue(f, p1) == Some(Finite(v1)) && cas.residue(f, p2) == Some(Finite(v2))
    requires p1 != p2 && v1 != Zero && v2 != Zero
    ensures PolesOf(cas, f) == [Entry(p1, v1), Entry(p2, v2)]
  {
    var a := Entry(p1, v1);
    var b := Entry(p2, v2);
    var res := ResidueAt(cas, f);
    assert res(p1) == Some(Finite(v1));
    assert res(p2) == Some(Finite(v2));
    assert Step([], p1, Finite(v1)) == [a];
    assert [p1, p2][1..] == [p2];
    assert Scan([p1, p2], res, []) == Scan([p2], res, [a]);
    assert [a][1..] == [];
    assert Store([], p2, v2) == [b];
    assert Step([a], p2, Finite(v2)) == [a, b];
    assert Scan([p2], res, [a]) == Scan([], res, [a, b]);
  }

  /** Two poles that sit where the contour encloses them are both reported,
      in order, with their residues added. */
  lemma TwoPolesEnclosed(c: Contour, locate: Complex -> Option<Complex>, p1: Complex, v1: Complex, p2: Complex, v2: Complex)
    requires locate(p1) == Some(p1) && locate(p2) == Some(p2)
    requires Encloses(c, p1) && Encloses(c, p2)
    ensures var m := [Entry(p1, v1), Entry(p2, v2)];
      && Inside(c, m, locate) == m
      && Keys(m) == [p1, p2]
      && Total(m) == Add(v1, Add(v2, Zero))
      && !SomeFails([p1, p2], locate)
  {
    var m := [Entry(p1, v1), Entry(p2, v2)];
    assert m[1..] == [Entry(p2, v2)];
    assert m[1..][1..] == [];
    assert Inside(c, m[1..], locate) == m[1..];
    assert Keys(m[1..]) == [p2];
    assert Total(m[1..]) == Add(v2, Zero);
    SomeFailsCons([p1, p2], locate);
    SomeFailsCons([p2], locate);
    assert [p1, p2][1..] == [p2];
    assert !SomeFails([p2][1..], locate);
  }

  lemma PlusMinusTwoIResidues()
    ensures TwoI != MinusTwoI
    ensures Complex(0.0, -0.25) != Zero && Complex(0.0, 0.25) != Zero
  {
    assert TwoI.im != MinusTwoI.im;
  }

  lemma PlusMinusTwoIInsideRadiusThree()
    ensures Encloses(Circle(Zero, 3.0), TwoI)
    ensures Encloses(Circle(Zero, 3.0), MinusTwoI)
  {
    assert Sub(TwoI, Zero) == Complex(0.0, 2.0);
    assert Norm2(Complex(0.0, 2.0)) == 4.0;
    assert Sub(MinusTwoI, Zero) == Complex(0.0, -2.0);
    assert Norm2(Complex(0.0, -2.0)) == 4.0;
    assert Square(3.0) == 9.0;
  }

  /** The dictionary of `1/(z**2+4)`, and what the circle of radius 3 at
      the origin makes of it: both poles inside, residues cancelling. */
  lemma PlusMinusTwoITally(locate: Complex -> Option<Complex>)
    requires locate(TwoI) == Some(TwoI) && locate(MinusTwoI) == Some(MinusTwoI)
    ensures var m := [Entry(TwoI, Complex(0.0, -0.25)), Entry(MinusTwoI, Complex(0.0, 0.25))];
      && Inside(Circle(Zero, 3.0), m, locate) == m
      && Keys(m) == [TwoI, MinusTwoI]
      && Total(m) == Zero
      && !SomeFails([TwoI, MinusTwoI], locate)
  {
    PlusMinusTwoIInsideRadiusThree();
    TwoPolesEnclosed(Circle(Zero, 3.0), locate, TwoI, Complex(0.0, -0.25), MinusTwoI, Complex(0.0, 0.25));
    assert Add(Complex(0.0, -0.25), Add(Complex(0.0, 0.25), Zero)) == Zero;
  }

  /** `2*pi*I*0` denotes `0` whatever pi is. */
  lemma ZeroTimesTwoPiI()
    ensures forall pi :: ValueOf(TwoPiI(Zero), pi) == Zero
  {
    forall pi: real ensures ValueOf(TwoPiI(Zero), pi) == Zero {
      MulZero(Complex(0.0, 2.0 * pi));
    }
  }

  /** `1/(z**2+4)` around the circle of radius 3 at the origin, for any
      computer-algebra system that answers as the mathematics does for that
      formula (poles `2i` then `-2i`, residues `-i/4` and `i/4`, each pole
      its own numeric value): both poles are enclosed, their residues
      cancel, and the integral, though written as `2*pi*I*0`, is `0`. */
  lemma CancellingResidues<E>(req: Request, cas: Cas<E, Complex>, p: Parsers, f: E)
    requires cas.sympify(req.formula) == Some(f)
    requires cas.singularities(f) == Some([TwoI, MinusTwoI])
    requires cas.residue(f, TwoI) == Some(Finite(Complex(0.0, -0.25)))
    requires cas.residue(f, MinusTwoI) == Some(Finite(Complex(0.0, 0.25)))
    requires cas.evalf(TwoI) == Some(TwoI) && cas.evalf(MinusTwoI) == Some(MinusTwoI)
    requires ReadContour(req, p) == Read(Circle(Zero, 3.0))
    ensures var o := Analyze(req, cas, p);
      && o.Analysed?
      && o.report.enclosed == [TwoI, MinusTwoI]
      && o.report.residueSum == Zero
      && o.report.integral == TwoPiI(Zero)
      && forall pi :: ValueOf(o.report.integral, pi) == Zero
  {
    PlusMinusTwoIResidues();
    TwoPolesFound(cas, f, TwoI, Complex(0.0, -0.25), MinusTwoI, Complex(0.0, 0.25));
    PlusMinusTwoITally(cas.evalf);
    ReadableContourIsAnalysed(req, cas, p, f, Circle(Zero, 3.0));
    ZeroTimesTwoPiI();
  }

  /** A residue oracle that answers `v` at every point. */
  function Everywhere(v: Complex): Complex -> Residue {
    _ => Finite(v)
  }

  /** A formula with one pole `pole` with nonzero residue `v`,
      around the circle of radius `r` at the origin. */
  lemma OnePole(formula: string, radius: string, r: real, pole: Complex, v: Complex)
    requires Numbers().floatOf(radius) == Some(r)
    requires v != Zero
    ensures var inside := Encloses(Circle(Zero, r), pole);
      Analyze(CircleRequest(formula, radius), System(formula, [pole], Everywhere(v)), Numbers())
      == Analysed(Report([Entry(pole, v)], Some(Circle(Zero, r)),
                         if inside then [pole] else [],
                         if inside then Add(v, Zero) else Zero,
                         if inside then TwoPiI(Add(v, Zero)) else NoContribution))
  {
    var cas := System(formula, [pole], Everywhere(v));
    var a := Entry(pole, v);
    var c := Circle(Zero, r);
    ReadsOriginCircle(formula, radius, r);
    assert PolesOf(cas, ()) == [a] by {
      var res := ResidueAt(cas, ());
      assert Step([], pole, Finite(v)) == [a];
      assert Scan([pole], res, []) == Scan([], res, [a]);
    }
    OnePoleTally(c, cas.evalf, pole, v);
    ReadableContourIsAnalysed(CircleRequest(formula, radius), cas, Numbers(), (), c);
  }

  /** A one-entry dictionary whose pole sits at its own key. */
  lemma OnePoleTally(c: Contour, locate: Complex -> Option<Complex>, pole: Complex, v: Complex)
    requires locate(pole) == Some(pole)
    ensures var m := [Entry(pole, v)];
      && Keys(m) == [pole]
      && !SomeFails(Keys(m), locate)
      && Inside(c, m, locate) == (if Encloses(c, pole) then m else [])
      && Total(m) == Add(v, Zero)
  {
    var m := [Entry(pole, v)];
    assert m[1..] == [];
    SomeFailsCons([pole], locate);
  }

  /** `z**2/(z-1)` around the circle of radius 0.5 at the origin: the pole
      at `1` (residue `1`) is found but lies outside, so nothing is
      enclosed and the integral is `0`. */
  lemma PoleOutsideCircle(pi: real)
    ensures var o := Analyze(CircleRequest("z**2 / (z-1)", "0.5"),
                             System("z**2 / (z-1)", [Complex(1.0, 0.0)], Everywhere(Complex(1.0, 0.0))),
                             Numbers());
      && o.Analysed?
      && o.report.poles == [Entry(Complex(1.0, 0.0), Complex(1.0, 0.0))]
      && o.report.NothingEnclosed()
      && ValueOf(o.report.integral, pi) == Zero
  {
    UnitOutsideHalfCircle();
    OnePole("z**2 / (z-1)", "0.5", 0.5, Complex(1.0, 0.0), Complex(1.0, 0.0));
  }

  lemma UnitOutsideHalfCircle()
    ensures !Encloses(Circle(Zero, 0.5), Complex(1.0, 0.0))
  {
  }

  /** `exp(z)/(z-2)**3` around the circle of radius 3 at the origin,
      given a residue oracle that answers `exp(2)/2` (with `e2` standing for
      `exp(2)`): the third-order pole at `2` is enclosed and the integral is
      `pi*i*exp(2)`. */
  lemma ThirdOrderPole(pi: real, e2: real)
    requires 0.0 < e2
    ensures var o := Analyze(CircleRequest("exp(z) / (z - 2)**3", "3.0"),
                             System("exp(z) / (z - 2)**3", [Complex(2.0, 0.0)], Everywhere(Complex(e2 / 2.0, 0.0))),
                             Numbers());
      && o.Analysed?
      && o.report.enclosed == [Complex(2.0, 0.0)]
      && ValueOf(o.report.integral, pi) == Complex(0.0, pi * e2)
  {
    var v := Complex(e2 / 2.0, 0.0);
    TwoInsideRadiusThree();
    HalfOfTwoPiI(pi, e2);
    OnePole("exp(z) / (z - 2)**3", "3.0", 3.0, Complex(2.0, 0.0), v);
  }

  lemma TwoInsideRadiusThree()
    ensures Encloses(Circle(Zero, 3.0), Complex(2.0, 0.0))
  {
  }

  lemma HalfOfTwoPiI(pi: real, x: real)
    ensures Add(Complex(x / 2.0, 0.0), Zero) == Complex(x / 2.0, 0.0)
    ensures Mul(Complex(0.0, 2.0 * pi), Complex(x / 2.0, 0.0)) == Complex(0.0, pi * x)
  {
    assert (2.0 * pi) * (x / 2.0) == pi * x;
  }

  /** An unreadable radius is a contour error once the formula parses; an
      unreadable formula is reported first, whatever the radius says. */
  lemma UnreadableRadius()
    ensures Analyze(CircleRequest("1/z", "abc"), System("1/z", [Zero], Everywhere(Complex(1.0, 0.0))), Numbers())
      == InvalidContour
    ensures Analyze(CircleRequest("1/(z", "abc"), System("1/z", [Zero], Everywhere(Complex(1.0, 0.0))), Numbers())
      == InvalidFunction
  {
    var p := Numbers();
    assert p.floatOf("abc") == None;
    assert ReadContour(CircleRequest("1/z", "abc"), p) == Malformed;
  }
}

=== FILE: sequences.dfy ===
/** Order facts about sequences: distinctness and subsequences. */
module Sequences {

  /** No value occurs twice. */
  predicate Distinct<T(==)>(s: seq<T>) {
    s == [] || (s[0] !in s[1..] && Distinct(s[1..]))
  }

  lemma {:induction false} DistinctSnoc<T>(s: seq<T>, x: T)
    requires Distinct(s) && x !in s
    ensures Distinct(s + [x])
  {
    if s != [] {
      assert (s + [x])[1..] == s[1..] + [x];
      DistinctSnoc(s[1..], x);
    }
  }

  // Solver hints: sequence identities Dafny proves unaided, named so that
  // proofs can instantiate them where the solver would not.

  lemma EmptyAppend<T>(s: seq<T>)
    ensures [] + s == s
  {
  }

  lemma AppendAssoc<T>(a: seq<T>, b: seq<T>, c: seq<T>)
    ensures (a + b) + c == a + (b + c)
  {
  }

  /** `xs` is `ys` with some elements left out, the rest kept in order. */
  predicate IsSubsequence<T(==)>(xs: seq<T>, ys: seq<T>)
    decreases |ys|
  {
    xs == [] ||
    (ys != [] &&
      ((xs[0] == ys[0] && IsSubsequence(xs[1..], ys[1..])) || IsSubsequence(xs, ys[1..])))
  }
}

=== FILE: theorem.dfy ===
/** The residue-theorem aggregator of residuos.py (lines 84-103 and
    116-123): walk the pole-residue dictionary in order, convert each pole
    to a number, keep the ones strictly inside the contour, add up their
    residues, and report `2*pi*I` times that sum, or `0` when nothing is
    enclosed. */
module Theorem {
  import opened Wrappers
  import opened Complexes
  import opened Sequences
  import opened Poles
  import opened Contours

  /** The two accumulators of the source's loop: `polos_encerrados` and
      `suma_residuos`. */
  datatype Tally<S> = Tally(enclosed: seq<S>, sum: Complex)

  /** Pole `p` has a numeric value and it lies strictly inside `c`. */
  predicate LiesInside<S>(c: Contour, locate: S -> Option<Complex>, p: S) {
    locate(p).Some? && Encloses(c, locate(p).value)
  }

  /** The entries of `m` whose pole lies strictly inside `c`, in dictionary
      order: the reference the source's loop is held to. */
  function Inside<S>(c: Contour, m: PoleMap<S>, locate: S -> Option<Complex>): PoleMap<S>
    decreases |m|
  {
    if m == [] then []
    else (if LiesInside(c, locate, m[0].pole) then [m[0]] else []) + Inside(c, m[1..], locate)
  }

  /** The sum of the residues of `m`, starting from `0`. */
  function Total<S>(m: PoleMap<S>): Complex
    decreases |m|
  {
    if m == [] then Zero else Add(m[0].residue, Total(m[1..]))
  }

  /** The loop's body for one pole at numeric position `z`. */
  function Visit<S>(c: Contour, acc: Tally<S>, e: Entry<S>, z: Complex): Tally<S> {
    if Encloses(c, z) then Tally(acc.enclosed + [e.pole], Add(acc.sum, e.residue)) else acc
  }

  /** The source's loop over the dictionary's items from `acc` on; `None` is
      the `TypeError` of `complex(polo.evalf())` on a pole with no numeric
      value, which aborts the loop. */
  function Sweep<S>(c: Contour, m: PoleMap<S>, locate: S -> Option<Complex>, acc: Tally<S>): (r: Option<Tally<S>>)
    ensures r.None? <==> SomeFails(Keys(m), locate)
    decreases |m|
  {
    if m == [] then Some(acc)
    else
      SomeFailsCons(Keys(m), locate);
      match locate(m[0].pole)
      case None => None
      case Some(z) => Sweep(c, m[1..], locate, Visit(c, acc, m[0], z))
  }

  /** What one turn of the loop does, matched against the reference. */
  lemma SweepStep<S>(c: Contour, m: PoleMap<S>, locate: S -> Option<Complex>, acc: Tally<S>)
    requires m != [] && !SomeFails(Keys(m), locate)
    ensures locate(m[0].pole).Some? && !SomeFails(Keys(m[1..]), locate)
    ensures Sweep(c, m, locate, acc)
      == Sweep(c, m[1..], locate, Visit(c, acc, m[0], locate(m[0].pole).value))
  {
    SomeFailsCons(Keys(m), locate);
  }

  /** One turn of the loop moves one entry from the reference into the
      accumulators without changing what they add up to. */
  lemma VisitMatchesInside<S>(c: Contour, m: PoleMap<S>, locate: S -> Option<Complex>, acc: Tally<S>)
    requires m != [] && locate(m[0].pole).Some?
    ensures var acc' := Visit(c, acc, m[0], locate(m[0].pole).value);
      && acc'.enclosed + Keys(Inside(c, m[1..], locate)) == acc.enclosed + Keys(Inside(c, m, locate))
      && Add(acc'.sum, Total(Inside(c, m[1..], locate))) == Add(acc.sum, Total(Inside(c, m, locate)))
  {
    var rest := Inside(c, m[1..], locate);
    if LiesInside(c, locate, m[0].pole) {
      assert Inside(c, m, locate) == [m[0]] + rest;
      KeysOfCons(m[0], rest);
      assert ([m[0]] + rest)[1..] == rest;
      assert (acc.enclosed + [m[0].pole]) + Keys(rest) == acc.enclosed + ([m[0].pole] + Keys(rest));
    } else {
      assert Inside(c, m, locate) == rest;
    }
  }

  /** The loop computes the reference: its list is the keys of the enclosed
      entries, in order, after what it started with, and its sum adds their
      residues to what it started with. */
  lemma {:induction false} SweepComputesInside<S>(c: Contour, m: PoleMap<S>, locate: S -> Option<Complex>, acc: Tally<S>)
    requires !SomeFails(Keys(m), locate)
    ensures Sweep(c, m, locate, acc)
      == Some(Tally(acc.enclosed + Keys(Inside(c, m, locate)), Add(acc.sum, Total(Inside(c, m, locate)))))
    decreases |m|
  {
    if m == [] {
      assert acc.enclosed + [] == acc.enclosed;
    } else {
      SweepStep(c, m, locate, acc);
      SweepComputesInside(c, m[1..], locate, Visit(c, acc, m[0], locate(m[0].pole).value));
      VisitMatchesInside(c, m, locate, acc);
    }
  }

  /** The reference keeps exactly the entries whose pole lies inside. */
  lemma {:induction false} InsideMembers<S>(c: Contour, m: PoleMap<S>, locate: S -> Option<Complex>)
    ensures forall e :: e in Inside(c, m, locate) <==> e in m && LiesInside(c, locate, e.pole)
    decreases |m|
  {
    if m != [] {
      InsideMembers(c, m[1..], locate);
      assert forall e :: e in m <==> e == m[0] || e in m[1..];
    }
  }

  /** The enclosed poles appear in the dictionary's order. */
  lemma {:induction false} InsideKeepsOrder<S>(c: Contour, m: PoleMap<S>, locate: S -> Option<Complex>)
    ensures IsSubsequence(Keys(Inside(c, m, locate)), Keys(m))
    decreases |m|
  {
    if m != [] {
      var rest := Inside(c, m[1..], locate);
      InsideKeepsOrder(c, m[1..], locate);
      KeysOfCons(m[0], m[1..]);
      if LiesInside(c, locate, m[0].pole) {
        assert Inside(c, m, locate) == [m[0]] + rest;
        KeysOfCons(m[0], rest);
        assert Keys(m)[1..] == Keys(m[1..]);
        assert Keys([m[0]] + rest)[1..] == Keys(rest);
      } else {
        assert Inside(c, m, locate) == rest;
        if Keys(rest) != [] {
          assert Keys(m)[1..] == Keys(m[1..]);
        }
      }
    }
  }

  /** A pole is enclosed exactly when it is a key whose location lies inside. */
  lemma InsideKeys<S>(c: Contour, m: PoleMap<S>, locate: S -> Option<Complex>)
    ensures forall x :: x in Keys(Inside(c, m, locate)) <==> x in Keys(m) && LiesInside(c, locate, x)
  {
    InsideMembers(c, m, locate);
    forall x ensures x in Keys(Inside(c, m, locate)) <==> x in Keys(m) && LiesInside(c, locate, x) {
      InKeys(Inside(c, m, locate), x);
      InKeys(m, x);
    }
  }

  /** Distinct keys stay distinct among the enclosed poles. */
  lemma {:induction false} InsideDistinct<S>(c: Contour, m: PoleMap<S>, locate: S -> Option<Complex>)
    ensures Distinct(Keys(m)) ==> Distinct(Keys(Inside(c, m, locate)))
    decreases |m|
  {
    if m != [] && Distinct(Keys(m)) {
      var rest := Inside(c, m[1..], locate);
      KeysOfCons(m[0], m[1..]);
      InsideDistinct(c, m[1..], locate);
      if LiesInside(c, locate, m[0].pole) {
        InsideKeys(c, m[1..], locate);
        KeysOfCons(m[0], rest);
        assert Inside(c, m, locate) == [m[0]] + rest;
      } else {
        assert Inside(c, m, locate) == rest;
      }
    }
  }

  /** With nothing enclosed the sum is the initial `0`. */
  lemma InsideEmptySum<S>(c: Contour, m: PoleMap<S>, locate: S -> Option<Complex>)
    ensures Keys(Inside(c, m, locate)) == [] ==> Total(Inside(c, m, locate)) == Zero
  {
  }

  /** The source's loop from its initial `suma_residuos, polos_encerrados =
      0, []`: `None` when some pole has no numeric value, otherwise the
      enclosed poles in dictionary order and the sum of exactly their
      residues. */
  function Classify<S>(c: Contour, m: PoleMap<S>, locate: S -> Option<Complex>): (r: Option<Tally<S>>)
    ensures r.None? <==> SomeFails(Keys(m), locate)
    ensures r.Some? ==> r.value == Tally(Keys(Inside(c, m, locate)), Total(Inside(c, m, locate)))
  {
    var r := Sweep(c, m, locate, Tally([], Zero));
    if r.Some? then
      var inside := Inside(c, m, locate);
      SweepComputesInside(c, m, locate, Tally([], Zero));
      EmptyAppend(Keys(inside));
      AddZero(Total(inside));
      r
    else r
  }

  /** `resultado_integral`: the literal `0` when nothing is enclosed,
      otherwise the symbolic product `2*pi*I*suma_residuos`. */
  datatype Integral = NoContribution | TwoPiI(sum: Complex)

  function IntegralOf<S>(t: Tally<S>): Integral {
    if t.enclosed == [] then NoContribution else TwoPiI(t.sum)
  }

  /** The complex number an integral denotes, for a given value of pi. */
  function ValueOf(v: Integral, pi: real): Complex {
    match v
    case NoContribution => Zero
    case TwoPiI(s) => Mul(Complex(0.0, 2.0 * pi), s)
  }

  /** Whichever branch the source takes, the reported integral is `2*pi*i`
      times the sum of the residues of exactly the enclosed poles, as the
      residue theorem states; in particular it is `0` when nothing is
      enclosed. */
  lemma IntegralIsResidueTheorem<S>(c: Contour, m: PoleMap<S>, locate: S -> Option<Complex>, pi: real)
    requires !SomeFails(Keys(m), locate)
    ensures Classify(c, m, locate).Some?
    ensures ValueOf(IntegralOf(Classify(c, m, locate).value), pi)
      == Mul(Complex(0.0, 2.0 * pi), Total(Inside(c, m, locate)))
  {
    var t := Classify(c, m, locate).value;
    if t.enclosed == [] {
      InsideEmptySum(c, m, locate);
      MulZero(Complex(0.0, 2.0 * pi));
    }
  }
}

=== FILE: wrappers.dfy ===
/** Failure-carrying wrappers shared by the modules of this model. */
module Wrappers {

  /** A value that may be missing; `None` stands for an exception raised by
      an external routine (the computer-algebra system or a Python parser). */
  datatype Option<+T> = None | Some(value: T)

  /** Applying `f` to some element of `xs` raises. */
  ghost predicate SomeFails<T, U>(xs: seq<T>, f: T -> Option<U>) {
    exists k :: 0 <= k < |xs| && f(xs[k]).None?
  }

  /** `SomeFails` read one element at a time, the way a loop meets them. */
  lemma {:induction false} SomeFailsCons<T, U>(xs: seq<T>, f: T -> Option<U>)
    requires xs != []
    ensures SomeFails(xs, f) <==> f(xs[0]).None? || SomeFails(xs[1..], f)
  {
    if SomeFails(xs[1..], f) {
      var k :| 0 <= k < |xs[1..]| && f(xs[1..][k]).None?;
      assert f(xs[k + 1]).None?;
    }
    if SomeFails(xs, f) && f(xs[0]).Some? {
      var k :| 0 <= k < |xs| && f(xs[k]).None?;
      assert f(xs[1..][k - 1]).None?;
    }
  }
}
